=== FILE: README.md ===
# SwiftConnect connection controller, modelled in Dafny

SwiftConnect is a macOS menu-bar front end for openconnect. Its one piece of
real logic is the VPN connection controller (`VPNController` in
`SwiftConnect/VPNUtils.swift`). It is a small state machine. It drives a SAML
web login through an authentication manager, then starts openconnect through
`sudo` with a fixed command line and a secret written to standard input. The
window (`SwiftConnect/ContentView.swift`) picks its screen from the
controller's state and from whether the tunnel interface is up.

The model is functional. The controller is an immutable record: state,
protocol, credentials, whether an authentication manager exists, stored
pre-auth reply, session token, server certificate hash, and the application
delegate's "pin popover" flag. Every
operation and callback is a pure function from (controller, inputs) to
(controller, requests made). A request is made of the process manager, the
authentication manager, the application delegate or the credential store
(saving the credentials, loading the superuser password). The requests are
listed in the order the source makes them.

- `optionals.dfy`: `Option`, standing for Swift optionals.
- `vpn_types.dfy`: `VPNState` with `description`, `VPNProtocol` with its raw
  value and `name`, the credentials and the portal's replies.
- `openconnect.dfy`: the sudo/openconnect argument vector and the
  standard-input payload. It also holds a reader for each. The argument reader
  is proved to be the exact inverse of its builder. The payload reader is its
  builder's inverse when neither secret contains a newline.
- `controller.dfy`: the transitions `start`, `startvpn`, `restartvpn` and
  `restart`, `preAuthCallback`, `authCookieCallback`, `postAuthCallback` and
  `terminate`.
- `lifecycle.dfy`: runs of events. It proves the state invariants, the
  well-formedness of every launch, the SAML handshake, the password scenario
  and the logout properties.
- `content_view.dfy`: the `(state, tun_intf)` screen switch and the Connect
  button.

A forced unwrap (`!`) of a missing value stops the application. Each one is a
`requires` on the operation. In `Lifecycle.Run` it is a run that ends in
`None`.

Three behaviours of the code are easy to misread, and the model follows the code in each:
- In SAML mode `start` does not change the state. Besides the save and load
  requests, it only requests pre-authentication. The state becomes Processing only when the cookie
  arrives.
- `start` does not check that the controller is Stopped.
- No operation in `VPNUtils.swift` ever sets `launched`, and none returns the
  state to `stopped`. The "connected" screen appears only
  when the tunnel interface is up and the state is stopped, webauth or
  launched; with the tunnel down, `launched` shows the login screen.

## Model

| member | source | states |
|---|---|---|
| VPNTypes.Description | SwiftConnect/VPNUtils.swift:17-25 | a state reads "launching" exactly when it is `processing`; every other state reads as its own case name |
| VPNTypes.DescriptionInjective | SwiftConnect/VPNUtils.swift:17-25 | two states with the same description are the same state |
| VPNTypes.FromId | SwiftConnect/VPNUtils.swift:28-33 | reading a raw value gives back a protocol whose raw value it is |
| VPNTypes.FromIdOfId | SwiftConnect/VPNUtils.swift:28-33 | a protocol's raw value ("gp", "anyconnect") reads back as that protocol |
| VPNTypes.Name | SwiftConnect/VPNUtils.swift:35-40 | the picker name is "GlobalProtect" exactly for globalProtect and "AnyConnect" exactly for anyConnect |
| OpenConnect.ParseRender | SwiftConnect/VPNUtils.swift:88-101 | either launch command line reads back as the binary, protocol, mode (hash or username) and portal it was built from |
| OpenConnect.RenderParse | SwiftConnect/VPNUtils.swift:88-101 | any argument vector that reads as an invocation is exactly that invocation's command line |
| OpenConnect.PayloadLines | SwiftConnect/VPNUtils.swift:91-98 | a reader of standard input sees exactly two lines: the superuser password, then the secret (when neither holds a newline) |
| OpenConnect.PayloadFromLines | SwiftConnect/VPNUtils.swift:91-98 | newline-terminated input that reads as two lines is the payload of those two lines |
| Controller.StartVpn | SwiftConnect/VPNUtils.swift:83-104 | state becomes processing and the popover is released, nothing else changes; exactly one sudo launch, with the exact SAML (cookie-on-stdin, pinned certificate) or password (`-u user --passwd-on-stdin`) command line and stdin sudo-password, newline, token or password, newline |
| Controller.Start | SwiftConnect/VPNUtils.swift:67-81 | adopts the credentials with the stored superuser password; saves first exactly when asked, then loads the superuser password. In SAML mode: the only other change is that an auth manager exists, there is no launch, and the last request is pre-auth with the adopted credentials. Otherwise: the only other changes are processing and a released popover, and the requests are exactly the save/load prologue followed by one launch, `startvpn`'s password-mode request with stdin sudo-password then password and `-u user --passwd-on-stdin portal` |
| Controller.PreAuthCallback | SwiftConnect/VPNUtils.swift:115-124 | the reply is always stored; with an auth error nothing else changes; otherwise the state becomes webauth and the popover is pinned |
| Controller.AuthCookieCallback | SwiftConnect/VPNUtils.swift:126-137 | a missing cookie changes nothing and requests nothing; a cookie gives processing, an unpinned popover, a scheduled close, then finish-auth with the stored pre-auth reply and that cookie |
| Controller.PostAuthCallback | SwiftConnect/VPNUtils.swift:139-148 | without a session token nothing changes and nothing launches; with one, the token and hash are stored, the state becomes processing with the popover released, nothing else changes, and exactly one launch feeds that token and pins that hash |
| Controller.Terminate | SwiftConnect/VPNUtils.swift:150-157 | state becomes processing; token and hash are cleared when forgetAuth holds and kept otherwise; nothing else changes; exactly one terminate-process request |
| Controller.Restart | SwiftConnect/VPNUtils.swift:106-113 | the terminate request comes first, then one launch that reuses the kept token and hash; the session survives |
| Lifecycle.Apply | SwiftConnect/VPNUtils.swift:63-157 | every event leaves the state as it was or sets processing or webauth, and keeps "popover pinned only while webauth or processing" |
| Lifecycle.RunStates | SwiftConnect/VPNUtils.swift:84-151 | after any run the state is the initial one, processing or webauth: no operation sets launched, stopped or viewlogs |
| Lifecycle.ReachableFromStopped | SwiftConnect/VPNUtils.swift:84-151 | from stopped only stopped, processing and webauth are reachable |
| Lifecycle.RunKeepsPinConsistent | SwiftConnect/VPNUtils.swift:103-132 | along any run the popover is pinned only while web auth is pending or processing |
| Lifecycle.LaunchRequestDecodes | SwiftConnect/VPNUtils.swift:88-101 | the launch decodes to the credentials' binary and portal, the controller's protocol, and the mode the SAML flag selects; its stdin reads as sudo password then secret |
| Lifecycle.RunLaunchesWellFormed | SwiftConnect/VPNUtils.swift:83-104 | every launch anywhere in a run goes through sudo, has a decodable command line and newline-terminated stdin |
| Lifecycle.HandshakeStates | SwiftConnect/VPNUtils.swift:67-137 | along start, pre-auth success and cookie, the state is first left unchanged, then becomes webauth with the popover pinned, then processing with it released |
| Lifecycle.SamlHandshake | SwiftConnect/VPNUtils.swift:67-148 | start, pre-auth success, cookie and post-auth end in processing with the popover released and the session's token and hash stored; finish-auth gets the pre-auth reply and the cookie; exactly one launch, with the pinned hash and stdin sudo password then token |
| Lifecycle.PasswordScenario | SwiftConnect/VPNUtils.swift:67-101 | alice's credentials on an AnyConnect controller give processing and exactly one launch: the full sudo command line with `-u alice --passwd-on-stdin`, the interpolated protocol and portal, and stdin "root1\npw1\n" |
| Lifecycle.ForgetThenRestartTraps | SwiftConnect/VPNUtils.swift:106-155 | in SAML mode, restart after terminate(forgetAuth: true) stops the application: restartvpn passes the forgotten (nil) server-certificate hash, and its forced unwrap in the argument list (VPNUtils.swift:90) fails before the token's at :91 is reached |
| Lifecycle.NoLaunchWithoutSession | SwiftConnect/VPNUtils.swift:83-148 | in SAML mode without a token, nothing launches, and no token is stored, until a post-auth reply brings a new token. The runs covered exclude switching credentials, a password-mode start and a direct `startvpn` call, because each of these can launch without a stored token |
| Lifecycle.ForgetAuthForcesHandshake | SwiftConnect/VPNUtils.swift:150-155 | after a full logout in SAML mode no cached token is reused: nothing launches before a new post-auth reply. The runs covered exclude switching credentials, a password-mode start and a direct `startvpn` call |
| ContentView.SelectScreen | SwiftConnect/ContentView.swift:167-177 | progress exactly for processing; connected exactly when the tunnel is up in stopped, webauth or launched; web login exactly for webauth with the tunnel down, at the login URL of the credentials' pre-auth reply; login otherwise, including viewlogs |
| ContentView.LaunchedScreenFollowsTunnel | SwiftConnect/ContentView.swift:167-177 | for a controller started from stopped, the connected screen shows exactly when the tunnel is up and nothing is in progress |
| ContentView.ConnectButton | SwiftConnect/ContentView.swift:98-104 | the button acts only when SAMLv2 is ticked; it then starts with the SAML flag copied into the credentials, so a start from the window never launches directly and ends by requesting pre-auth |

## Left out

- The collaborators' internals are not modelled, because they are foreign I/O: the sudo subprocess, HTTP to the portal, the keychain and the network-interface monitor. Each call to `ProcessManager.launch`/`terminateProcess`, `AuthManager.pre_auth`/`finish_auth`, `AppDelegate.closePopover`, `Credentials.save` and `load_sudo_password` is a request in the step's list. `ProcessManager`, `AuthManager`, `AppDelegate`, `Credentials` and `NetworkPathMonitor` are not part of this model. As a result, "a second launch while one is running fails" is not modelled.
- `load_sudo_password` is modelled as an input: the superuser password the store yields, which becomes the credentials' `sudo_password`.
- The text of `--protocol=\(proto)` is a parameter (`Interpolation.proto`). What Swift's interpolation of the enum yields is not asserted.
- The declared type of `Credentials.portal` is not visible. The login screen binds it with `$credentials.portal ?? ""` (SwiftConnect/ContentView.swift:76), so it is an optional string, and the model declares it `Option<string>`. How `\(credentials.portal)` renders that optional is a parameter (`Interpolation.portal`), not asserted.
- Standard input is a character string. Its UTF-8 encoding into `Data` is not modelled.
- The one-second `DispatchQueue.main.asyncAfter` delay is a "close popover scheduled" request. Threading and the timing of callbacks are left out, and so are all `Logger` calls.
- The `onLaunch` callbacks passed to `startvpn` and `restartvpn` are never called by the controller. The completion closures handed to the process manager only write log lines. Neither changes controller state, so both are left out with the other logging.
- The `shared` singleton, `stdinPath`, `sudo_pass` and `currentLogURL` are unused plumbing.
- The initial value of the application delegate's `pinPopover` is not visible. `Controller.Initial` takes it as false.
- `killOpenConnect` and `openLogFile`, called from the connected screen, are not part of this model. Their bodies are not in `VPNUtils.swift`, yet `state` is a published, publicly writable property (SwiftConnect/VPNUtils.swift:49). Writes to `state` from code that is not visible are not modelled. This is why a modelled run never leaves processing except towards webauth. It is also why a connect, which ends in processing, keeps showing the progress screen even once the tunnel is up.
- `Credentials` is a class shared by reference. The window creates it (SwiftConnect/ContentView.swift:162), the Connect button writes to it (SwiftConnect/ContentView.swift:99), and `start` stores that same object (SwiftConnect/VPNUtils.swift:68). So edits made in the login form after a SAML `start` change what a later `startvpn` reads (SwiftConnect/VPNUtils.swift:90-91). The model copies a record instead. Such in-place edits are represented only by an `Initialize` event that replaces the controller's credentials, and the run lemmas cover them because they hold for any sequence of events.
- SwiftUI rendering, frame sizes, the web view and the previews are not modelled. The protocol picker is modelled only as the `PickProtocol` event.
- ContentView.SelectScreen: does not model `URL(string:)` rejecting a malformed login URL, because URL parsing is foreign. Only the presence of the pre-auth reply and its login URL is required.
- OpenConnect.PayloadLines: holds only when neither secret contains a newline. A password with a newline would be split differently by the reader, and that case is not modelled.

=== FILE: content_view.dfy ===
/** The window's decision logic: which screen it shows for the controller's
    state and the tunnel-interface signal, and what its Connect button does. */
module ContentView {
  import opened Optionals
  import opened VPNTypes
  import C = Controller
  import L = Lifecycle

  /** The screens the window can show; the web-login screen carries the URL
      it opens. */
  datatype Screen = LoginScreen | LaunchedScreen | WebAuthScreen(loginUrl: string) | ProgressScreen

  /** The web-login screen force-unwraps the credentials' pre-authentication
      reply and its login URL, so both must be present when it is chosen. */
  predicate ScreenDefined(state: VPNState, tunIntf: bool, creds: Credentials)
  {
    state == WebAuth && !tunIntf ==> creds.preauth.Some? && creds.preauth.value.loginUrl.Some?
  }

  /** The screen for a state and whether the tunnel interface is up, given
      the window's credentials. */
  function SelectScreen(state: VPNState, tunIntf: bool, creds: Credentials): (s: Screen)
    requires ScreenDefined(state, tunIntf, creds)
    ensures s.ProgressScreen? <==> state == Processing
    ensures s.LaunchedScreen? <==> tunIntf && (state == Stopped || state == WebAuth || state == Launched)
    ensures s.WebAuthScreen? <==> state == WebAuth && !tunIntf
    ensures s.WebAuthScreen? ==> s.loginUrl == creds.preauth.value.loginUrl.value
    ensures s.LoginScreen? <==> state == ViewLogs || (!tunIntf && (state == Stopped || state == Launched))
  {
    match (state, tunIntf)
    case (Stopped, false) => LoginScreen
    case (Stopped, true) => LaunchedScreen
    case (WebAuth, true) => LaunchedScreen
    case (WebAuth, false) => WebAuthScreen(creds.preauth.value.loginUrl.value)
    case (Processing, false) => ProgressScreen
    case (Processing, true) => ProgressScreen
    case (Launched, true) => LaunchedScreen
    case (Launched, false) => LoginScreen
    case _ => LoginScreen
  }

  /** For a controller started from Stopped, the connected screen appears
      exactly when the tunnel interface is up and nothing is in progress:
      the controller itself never reports a connection. */
  lemma LaunchedScreenFollowsTunnel(c: C.VPNController, events: seq<L.Event>, interp: Interpolation,
                                    tunIntf: bool, creds: Credentials)
    requires c.state == Stopped
    requires L.Run(c, events, interp).Some?
    requires ScreenDefined(L.Run(c, events, interp).value.ctl.state, tunIntf, creds)
    ensures var state := L.Run(c, events, interp).value.ctl.state;
            SelectScreen(state, tunIntf, creds).LaunchedScreen? <==> tunIntf && state != Processing
    ensures var state := L.Run(c, events, interp).value.ctl.state;
            !tunIntf && SelectScreen(state, tunIntf, creds).LoginScreen? ==> state == Stopped
  {
    L.ReachableFromStopped(c, events, interp);
  }

  /** The Connect button: disabled unless SAMLv2 is ticked; otherwise it
      copies the toggle into the credentials and starts the controller. */
  function ConnectButton(c: C.VPNController, creds: Credentials, useSAMLv2: bool, saveToKeychain: bool,
                         storedSudo: Option<string>, interp: Interpolation): (r: Option<C.Step>)
    ensures r.Some? <==> useSAMLv2
    ensures r.Some? ==> r.value == C.Start(c, creds.(samlv2 := true), saveToKeychain, storedSudo, interp)
    ensures r.Some? ==>
              && r.value.ctl.credentials.value.samlv2
              && r.value.ctl.state == c.state
              && C.Launches(r.value.effects) == []
              && r.value.effects[|r.value.effects| - 1].PreAuth?
  {
    if !useSAMLv2 then None
    else Some(C.Start(c, creds.(samlv2 := useSAMLv2), saveToKeychain, storedSudo, interp))
  }
}

=== FILE: controller.dfy ===
/** The VPN connection controller as a pure state machine. Each operation maps
    the controller's state and its inputs to a new state and the list of
    requests it makes of its collaborators (process manager, authentication
    manager, application delegate, credential store), in the order it makes
    them. */
module Controller {
  import opened Optionals
  import opened VPNTypes
  import opened OpenConnect

  /** What the controller holds between calls. `pinPopover` is the
      application delegate's flag that keeps the popover window open during
      the web login; `hasAuthManager` says whether an authentication manager
      has been created. */
  datatype VPNController = VPNController(
    state: VPNState,
    proto: VPNProtocol,
    credentials: Option<Credentials>,
    hasAuthManager: bool,
    authReqResp: Option<AuthRequestResp>,
    sessionToken: Option<string>,
    serverCertHash: Option<string>,
    pinPopover: bool)

  /** A freshly constructed controller. */
  const Initial := VPNController(Stopped, AnyConnect, None, false, None, None, None, false)

  /** A request made of a collaborator. */
  datatype Effect =
    | SaveCredentials(saved: Credentials)
    | LoadSudoPassword
    | PreAuth(creds: Credentials)
    | Launch(request: Request)
    | ClosePopoverScheduled
    | FinishAuth(pending: Option<AuthRequestResp>, cookie: Cookie)
    | TerminateProcess(current: Option<Credentials>)

  /** The outcome of one operation: the controller afterwards and the
      requests made, in order. */
  datatype Step = Step(ctl: VPNController, effects: seq<Effect>)

  /** The process launches among a list of effects, in order; there are none
      exactly when no effect is a launch. */
  function Launches(effects: seq<Effect>): (r: seq<Request>)
    ensures (forall i :: 0 <= i < |effects| ==> !effects[i].Launch?) <==> r == []
  {
    if effects == [] then []
    else (if effects[0].Launch? then [effects[0].request] else []) + Launches(effects[1..])
  }

  lemma {:induction false} LaunchesAppend(a: seq<Effect>, b: seq<Effect>)
    ensures Launches(a + b) == Launches(a) + Launches(b)
    decreases |a|
  {
    if a == [] {
      assert a + b == b;
    } else {
      assert (a + b)[0] == a[0];
      assert (a + b)[1..] == a[1..] + b;
      LaunchesAppend(a[1..], b);
    }
  }

  /** Credentials from which a launch can be built without a forced unwrap of
      a missing value: the binary and the superuser password are always
      needed, the username and password only outside SAML mode. */
  predicate CredentialsComplete(cr: Credentials)
  {
    cr.binPath.Some? && cr.sudoPassword.Some?
    && (!cr.samlv2 ==> cr.username.Some? && cr.password.Some?)
  }

  /** Whether `startvpn` with this token and hash can run to its launch:
      credentials are present and complete, and in SAML mode token and hash
      are present. */
  predicate CanLaunch(c: VPNController, token: Option<string>, hash: Option<string>)
  {
    c.credentials.Some? && CredentialsComplete(c.credentials.value)
    && (c.credentials.value.samlv2 ==> token.Some? && hash.Some?)
  }

  /** The sudo request a launch makes. */
  function LaunchRequest(c: VPNController, token: Option<string>, hash: Option<string>,
                         interp: Interpolation): Request
    requires CanLaunch(c, token, hash)
  {
    var cr := c.credentials.value;
    if cr.samlv2 then
      Request(SudoTool,
              Render(Invocation(cr.binPath.value, interp.proto(c.proto), CookieMode(hash.value), interp.portal(cr.portal))),
              Payload(cr.sudoPassword.value, token.value))
    else
      Request(SudoTool,
              Render(Invocation(cr.binPath.value, interp.proto(c.proto), PasswordMode(cr.username.value), interp.portal(cr.portal))),
              Payload(cr.sudoPassword.value, cr.password.value))
  }

  /** `startvpn`: enter Processing, launch openconnect through sudo, then
      release the popover. `interp` is how the protocol and the portal appear
      in the command line. */
  function StartVpn(c: VPNController, token: Option<string>, hash: Option<string>,
                    interp: Interpolation): (r: Step)
    requires CanLaunch(c, token, hash)
    ensures r.ctl == c.(state := Processing, pinPopover := false)
    ensures |r.effects| == 1 && r.effects[0].Launch?
    ensures var cr := c.credentials.value;
            var req := r.effects[0].request;
            && req.tool == "/usr/bin/sudo"
            && (cr.samlv2 ==>
                  && req.args == ["-k", "-S", cr.binPath.value, "-b", "--protocol=" + interp.proto(c.proto),
                                  "--pid-file=/var/run/openconnect.pid", "--cookie-on-stdin",
                                  "--servercert=" + hash.value, interp.portal(cr.portal)]
                  && req.input == cr.sudoPassword.value + "\n" + token.value + "\n")
            && (!cr.samlv2 ==>
                  && req.args == ["-k", "-S", cr.binPath.value, "-b", "--protocol=" + interp.proto(c.proto),
                                  "--pid-file=/var/run/openconnect.pid", "-u", cr.username.value,
                                  "--passwd-on-stdin", interp.portal(cr.portal)]
                  && req.input == cr.sudoPassword.value + "\n" + cr.password.value + "\n")
  {
    Step(c.(state := Processing, pinPopover := false), [Launch(LaunchRequest(c, token, hash, interp))])
  }

  /** The credentials after `load_sudo_password`, which fills in the
      superuser password the credential store holds (`storedSudo`). */
  function WithStoredSudo(creds: Credentials, storedSudo: Option<string>): Credentials
  {
    creds.(sudoPassword := storedSudo)
  }

  /** The requests `start` makes before it branches. */
  function StartPrologue(creds: Credentials, save: bool): seq<Effect>
  {
    (if save then [SaveCredentials(creds)] else []) + [LoadSudoPassword]
  }

  /** `start`: adopt the credentials, save them if asked, load the superuser
      password; then in SAML mode ask the authentication manager for
      pre-authentication, otherwise launch with username and password. */
  function Start(c: VPNController, creds: Credentials, save: bool, storedSudo: Option<string>,
                 interp: Interpolation): (r: Step)
    requires !creds.samlv2 ==> CredentialsComplete(WithStoredSudo(creds, storedSudo))
    ensures r.ctl.credentials == Some(creds.(sudoPassword := storedSudo))
    ensures creds.samlv2 ==>
              r == Step(c.(credentials := Some(WithStoredSudo(creds, storedSudo)), hasAuthManager := true),
                        StartPrologue(creds, save) + [PreAuth(WithStoredSudo(creds, storedSudo))])
    ensures !creds.samlv2 ==>
              r.ctl == c.(credentials := Some(WithStoredSudo(creds, storedSudo)), state := Processing, pinPopover := false)
    ensures !creds.samlv2 ==>
              r.effects == StartPrologue(creds, save)
                           + [Launch(LaunchRequest(c.(credentials := Some(WithStoredSudo(creds, storedSudo))),
                                                   Some(""), Some(""), interp))]
    ensures r.ctl.sessionToken == c.sessionToken && r.ctl.serverCertHash == c.serverCertHash
    ensures |r.effects| >= 2 && (r.effects[0] == SaveCredentials(creds) <==> save)
    ensures creds.samlv2 ==>
              && r.ctl.state == c.state && r.ctl.pinPopover == c.pinPopover && r.ctl.hasAuthManager
              && Launches(r.effects) == []
              && r.effects[|r.effects| - 1] == PreAuth(creds.(sudoPassword := storedSudo))
    ensures !creds.samlv2 ==>
              && r.ctl.state == Processing && !r.ctl.pinPopover
              && |Launches(r.effects)| == 1
              && Launches(r.effects)[0].input == storedSudo.value + "\n" + creds.password.value + "\n"
              && |Launches(r.effects)[0].args| == 10
              && Launches(r.effects)[0].args[6..] == ["-u", creds.username.value, "--passwd-on-stdin", interp.portal(creds.portal)]
  {
    var loaded := WithStoredSudo(creds, storedSudo);
    var prologue := StartPrologue(creds, save);
    assert Launches(prologue) == [] by {
      LaunchesAppend(if save then [SaveCredentials(creds)] else [], [LoadSudoPassword]);
    }
    if creds.samlv2 then
      var effects := prologue + [PreAuth(loaded)];
      LaunchesAppend(prologue, [PreAuth(loaded)]);
      Step(c.(credentials := Some(loaded), hasAuthManager := true), effects)
    else
      var s := StartVpn(c.(credentials := Some(loaded)), Some(""), Some(""), interp);
      LaunchesAppend(prologue, s.effects);
      Step(s.ctl, prologue + s.effects)
  }

  /** The one launch a password-mode `start` makes is `startvpn`'s. */
  lemma PasswordStartLaunch(c: VPNController, creds: Credentials, save: bool, storedSudo: Option<string>,
                            interp: Interpolation)
    requires !creds.samlv2 && CredentialsComplete(WithStoredSudo(creds, storedSudo))
    ensures var c1 := c.(credentials := Some(WithStoredSudo(creds, storedSudo)));
            Launches(Start(c, creds, save, storedSudo, interp).effects) == [LaunchRequest(c1, Some(""), Some(""), interp)]
  {
    var c1 := c.(credentials := Some(WithStoredSudo(creds, storedSudo)));
    var prologue := StartPrologue(creds, save);
    LaunchesAppend(if save then [SaveCredentials(creds)] else [], [LoadSudoPassword]);
    LaunchesAppend(prologue, StartVpn(c1, Some(""), Some(""), interp).effects);
  }

  /** The one launch `restart` makes is `startvpn`'s with the kept session. */
  lemma RestartLaunch(c: VPNController, interp: Interpolation)
    requires CanLaunch(c, c.sessionToken, c.serverCertHash)
    ensures var c1 := Terminate(c, false).ctl;
            Launches(Restart(c, interp).effects) == [LaunchRequest(c1, c1.sessionToken, c1.serverCertHash, interp)]
  {
    var r := Restart(c, interp);
    assert r.effects == [r.effects[0], r.effects[1]];
  }

  /** `preAuthCallback`: keep the reply; unless it carries an error, move to
      web authentication and pin the popover open. */
  function PreAuthCallback(c: VPNController, authResp: Option<AuthRequestResp>): (r: Step)
    requires authResp.Some?
    ensures r.effects == []
    ensures r.ctl.authReqResp == authResp
    ensures authResp.value.authError.Some? ==> r.ctl == c.(authReqResp := authResp)
    ensures authResp.value.authError.None? ==>
              r.ctl == c.(authReqResp := authResp, state := WebAuth, pinPopover := true)
  {
    var c1 := c.(authReqResp := authResp);
    if authResp.value.authError.Some? then Step(c1, [])
    else Step(c1.(state := WebAuth, pinPopover := true), [])
  }

  /** `authCookieCallback`: without a cookie nothing happens; with one, move
      to Processing, release the popover, schedule its closing and hand the
      stored pre-authentication reply and the cookie to the authentication
      manager. */
  function AuthCookieCallback(c: VPNController, cookie: Option<Cookie>): (r: Step)
    requires cookie.Some? ==> c.hasAuthManager
    ensures cookie.None? ==> r == Step(c, [])
    ensures cookie.Some? ==>
              && r.ctl == c.(state := Processing, pinPopover := false)
              && r.effects == [ClosePopoverScheduled, FinishAuth(c.authReqResp, cookie.value)]
  {
    match cookie
    case None => Step(c, [])
    case Some(uCookie) =>
      Step(c.(state := Processing, pinPopover := false),
           [ClosePopoverScheduled, FinishAuth(c.authReqResp, uCookie)])
  }

  /** The session token of a post-authentication reply, if there is one. */
  function TokenOf(authResp: Option<AuthCompleteResp>): Option<string>
  {
    if authResp.Some? then authResp.value.sessionToken else None
  }

  /** The controller after `postAuthCallback` has stored a reply's token and
      hash. */
  function StoreSession(c: VPNController, authResp: AuthCompleteResp): VPNController
  {
    c.(serverCertHash := authResp.serverCertHash, sessionToken := authResp.sessionToken)
  }

  /** What `postAuthCallback` needs to reach its launch without a forced
      unwrap failing, when the reply carries a token. */
  predicate PostAuthReady(c: VPNController, authResp: Option<AuthCompleteResp>)
  {
    TokenOf(authResp).Some? ==>
      CanLaunch(StoreSession(c, authResp.value), authResp.value.sessionToken, authResp.value.serverCertHash)
  }

  /** `postAuthCallback`: without a session token nothing happens; with one,
      store token and hash and launch with exactly those. */
  function PostAuthCallback(c: VPNController, authResp: Option<AuthCompleteResp>,
                            interp: Interpolation): (r: Step)
    requires PostAuthReady(c, authResp)
    ensures TokenOf(authResp).None? ==> r == Step(c, [])
    ensures TokenOf(authResp).Some? ==>
              && r.ctl.sessionToken == TokenOf(authResp)
              && r.ctl.serverCertHash == authResp.value.serverCertHash
              && r.ctl.state == Processing && !r.ctl.pinPopover
              && |Launches(r.effects)| == 1 && |r.effects| == 1
    ensures TokenOf(authResp).Some? ==>
              r.ctl == StoreSession(c, authResp.value).(state := Processing, pinPopover := false)
    ensures TokenOf(authResp).Some? && c.credentials.value.samlv2 ==>
              && Launches(r.effects)[0].input
                   == c.credentials.value.sudoPassword.value + "\n" + TokenOf(authResp).value + "\n"
              && |Launches(r.effects)[0].args| == 9
              && Launches(r.effects)[0].args[7] == "--servercert=" + authResp.value.serverCertHash.value
  {
    if TokenOf(authResp).None? then Step(c, [])
    else
      var c1 := StoreSession(c, authResp.value);
      var s := StartVpn(c1, c1.sessionToken, c1.serverCertHash, interp);
      assert Launches(s.effects) == [s.effects[0].request];
      s
  }

  /** The one launch a `postAuthCallback` with a token makes is
      `startvpn`'s with the reply's token and hash. */
  lemma PostAuthLaunch(c: VPNController, authResp: Option<AuthCompleteResp>, interp: Interpolation)
    requires PostAuthReady(c, authResp) && TokenOf(authResp).Some?
    ensures var c1 := StoreSession(c, authResp.value);
            Launches(PostAuthCallback(c, authResp, interp).effects)
              == [LaunchRequest(c1, c1.sessionToken, c1.serverCertHash, interp)]
  {
  }

  /** `terminate`: enter Processing, forget token and hash when asked to,
      and ask the process manager to stop openconnect. */
  function Terminate(c: VPNController, forgetAuth: bool): (r: Step)
    ensures r.ctl.state == Processing
    ensures forgetAuth ==> r.ctl.sessionToken.None? && r.ctl.serverCertHash.None?
    ensures !forgetAuth ==> r.ctl.sessionToken == c.sessionToken && r.ctl.serverCertHash == c.serverCertHash
    ensures r.ctl.(state := c.state, sessionToken := c.sessionToken, serverCertHash := c.serverCertHash) == c
    ensures r.effects == [TerminateProcess(c.credentials)]
  {
    var c1 := c.(state := Processing);
    var c2 := if forgetAuth then c1.(serverCertHash := None, sessionToken := None) else c1;
    Step(c2, [TerminateProcess(c.credentials)])
  }

  /** `restartvpn` (and `restart`): terminate keeping the session, then launch
      again with the kept token and hash. */
  function Restart(c: VPNController, interp: Interpolation): (r: Step)
    requires CanLaunch(c, c.sessionToken, c.serverCertHash)
    ensures r.ctl == c.(state := Processing, pinPopover := false)
    ensures |r.effects| == 2
    ensures r.effects[0] == TerminateProcess(c.credentials) && r.effects[1].Launch?
    ensures c.credentials.value.samlv2 ==>
              && r.effects[1].request.input
                   == c.credentials.value.sudoPassword.value + "\n" + c.sessionToken.value + "\n"
              && |r.effects[1].request.args| == 9
              && r.effects[1].request.args[7] == "--servercert=" + c.serverCertHash.value
  {
    var t := Terminate(c, false);
    var s := StartVpn(t.ctl, t.ctl.sessionToken, t.ctl.serverCertHash, interp);
    Step(s.ctl, t.effects + s.effects)
  }
}

=== FILE: lifecycle.dfy ===
/** Runs of the controller: the operations and callbacks that drive it, taken
    as a sequence of events, and what holds of every such run. */
module Lifecycle {
  import opened Optionals
  import opened VPNTypes
  import opened OpenConnect
  import C = Controller

  /** One call into the controller: from the window (initialize, protocol
      picker, start, restart, terminate) or from the authentication manager
      (its three replies). */
  datatype Event =
    | Initialize(creds: Option<Credentials>)
    | PickProtocol(proto: VPNProtocol)
    | StartCall(startCreds: Credentials, save: bool, storedSudo: Option<string>)
    | StartVpnCall(token: Option<string>, hash: Option<string>)
    | RestartCall
    | PreAuthReply(preAuth: Option<AuthRequestResp>)
    | CookieReply(cookie: Option<Cookie>)
    | PostAuthReply(postAuth: Option<AuthCompleteResp>)
    | TerminateCall(forgetAuth: bool)

  /** Whether the event runs without a forced unwrap of a missing value,
      which would stop the application. */
  predicate Enabled(c: C.VPNController, e: Event)
  {
    match e
    case Initialize(_) => true
    case PickProtocol(_) => true
    case StartCall(creds, _, storedSudo) =>
      !creds.samlv2 ==> C.CredentialsComplete(C.WithStoredSudo(creds, storedSudo))
    case StartVpnCall(token, hash) => C.CanLaunch(c, token, hash)
    case RestartCall => C.CanLaunch(c, c.sessionToken, c.serverCertHash)
    case PreAuthReply(resp) => resp.Some?
    case CookieReply(cookie) => cookie.Some? ==> c.hasAuthManager
    case PostAuthReply(resp) => C.PostAuthReady(c, resp)
    case TerminateCall(_) => true
  }

  /** The popover is pinned open only while web authentication is pending or
      the controller is still processing. */
  predicate PinConsistent(c: C.VPNController)
  {
    c.pinPopover ==> c.state == WebAuth || c.state == Processing
  }

  /** One event applied to the controller. */
  function Apply(c: C.VPNController, e: Event, interp: Interpolation): (r: C.Step)
    requires Enabled(c, e)
    ensures r.ctl.state == c.state || r.ctl.state == Processing || r.ctl.state == WebAuth
    ensures PinConsistent(c) ==> PinConsistent(r.ctl)
  {
    match e
    case Initialize(creds) => C.Step(c.(credentials := creds), [])
    case PickProtocol(p) => C.Step(c.(proto := p), [])
    case StartCall(creds, save, storedSudo) => C.Start(c, creds, save, storedSudo, interp)
    case StartVpnCall(token, hash) => C.StartVpn(c, token, hash, interp)
    case RestartCall => C.Restart(c, interp)
    case PreAuthReply(resp) => C.PreAuthCallback(c, resp)
    case CookieReply(cookie) => C.AuthCookieCallback(c, cookie)
    case PostAuthReply(resp) => C.PostAuthCallback(c, resp, interp)
    case TerminateCall(forgetAuth) => C.Terminate(c, forgetAuth)
  }

  /** Continues a run that ended in `prefix` with further events. */
  function Continue(prefix: Option<C.Step>, events: seq<Event>, interp: Interpolation): Option<C.Step>
    decreases |events|, 1
  {
    match prefix
    case None => None
    case Some(s) =>
      match Run(s.ctl, events, interp)
      case None => None
      case Some(t) => Some(C.Step(t.ctl, s.effects + t.effects))
  }

  /** The controller after a sequence of events, with every request made on
      the way; None when some event would stop the application. */
  function Run(c: C.VPNController, events: seq<Event>, interp: Interpolation): Option<C.Step>
    decreases |events|, 0
  {
    if events == [] then Some(C.Step(c, []))
    else if !Enabled(c, events[0]) then None
    else Continue(Some(Apply(c, events[0], interp)), events[1..], interp)
  }

  /** Running two sequences one after the other is running their
      concatenation. */
  lemma {:induction false} RunAppend(c: C.VPNController, a: seq<Event>, b: seq<Event>, interp: Interpolation)
    ensures Run(c, a + b, interp) == Continue(Run(c, a, interp), b, interp)
    decreases |a|
  {
    if a == [] {
      assert a + b == b;
      match Run(c, b, interp)
      case None =>
      case Some(t) => assert [] + t.effects == t.effects;
    } else {
      assert (a + b)[0] == a[0];
      assert (a + b)[1..] == a[1..] + b;
      if Enabled(c, a[0]) {
        var s := Apply(c, a[0], interp);
        RunAppend(s.ctl, a[1..], b, interp);
        match Run(s.ctl, a[1..], interp)
        case None =>
        case Some(t) =>
          match Run(t.ctl, b, interp)
          case None =>
          case Some(u) =>
            assert s.effects + (t.effects + u.effects) == (s.effects + t.effects) + u.effects;
      }
    }
  }

  /** A single enabled event runs as that event's step. */
  lemma RunSingle(c: C.VPNController, e: Event, interp: Interpolation)
    requires Enabled(c, e)
    ensures Run(c, [e], interp) == Some(Apply(c, e, interp))
  {
    var s := Apply(c, e, interp);
    assert [e][1..] == [];
    assert s.effects + [] == s.effects;
  }

  /** Extending a run by one enabled event adds that event's step. */
  lemma RunSnoc(c: C.VPNController, a: seq<Event>, e: Event, interp: Interpolation)
    requires Run(c, a, interp).Some? && Enabled(Run(c, a, interp).value.ctl, e)
    ensures var p := Run(c, a, interp).value;
            var s := Apply(p.ctl, e, interp);
            Run(c, a + [e], interp) == Some(C.Step(s.ctl, p.effects + s.effects))
  {
    RunAppend(c, a, [e], interp);
    RunSingle(Run(c, a, interp).value.ctl, e, interp);
  }

  /** A run's state is the state it started in, or Processing, or WebAuth:
      none of the modelled operations sets Launched, Stopped or ViewLogs.
      Writes to the state from code outside the controller's own file are
      not events here. */
  lemma {:induction false} RunStates(c: C.VPNController, events: seq<Event>, interp: Interpolation)
    requires Run(c, events, interp).Some?
    ensures var s := Run(c, events, interp).value.ctl.state;
            s == c.state || s == Processing || s == WebAuth
    decreases |events|
  {
    if events != [] {
      var s := Apply(c, events[0], interp);
      RunStates(s.ctl, events[1..], interp);
    }
  }

  /** From Stopped, only Stopped, Processing and WebAuth are reachable. */
  lemma ReachableFromStopped(c: C.VPNController, events: seq<Event>, interp: Interpolation)
    requires c.state == Stopped
    requires Run(c, events, interp).Some?
    ensures var s := Run(c, events, interp).value.ctl.state;
            s == Stopped || s == Processing || s == WebAuth
  {
    RunStates(c, events, interp);
  }

  /** Every run keeps the popover pin consistent with the state. */
  lemma {:induction false} RunKeepsPinConsistent(c: C.VPNController, events: seq<Event>, interp: Interpolation)
    requires PinConsistent(c)
    requires Run(c, events, interp).Some?
    ensures PinConsistent(Run(c, events, interp).value.ctl)
    decreases |events|
  {
    if events != [] {
      var s := Apply(c, events[0], interp);
      RunKeepsPinConsistent(s.ctl, events[1..], interp);
    }
  }

  /** A launch request as openconnect expects it: run through sudo, with an
      argument vector that reads as an invocation and newline-terminated
      standard input. */
  predicate WellFormedLaunch(q: Request)
  {
    q.tool == SudoTool && Parse(q.args).Some? && |q.input| >= 2 && q.input[|q.input| - 1] == '\n'
  }

  /** The launch `startvpn` makes reads back as the controller's binary,
      protocol and portal, in the mode the credentials select, with the
      hash (SAML) or the username; its standard input reads as the
      superuser password followed by the token or password. */
  lemma LaunchRequestDecodes(c: C.VPNController, token: Option<string>, hash: Option<string>,
                             interp: Interpolation)
    requires C.CanLaunch(c, token, hash)
    ensures var q := C.LaunchRequest(c, token, hash, interp);
            var cr := c.credentials.value;
            && WellFormedLaunch(q)
            && Parse(q.args).value.binPath == cr.binPath.value
            && Parse(q.args).value.protocol == interp.proto(c.proto)
            && Parse(q.args).value.portal == interp.portal(cr.portal)
            && (cr.samlv2 ==> Parse(q.args).value.mode == CookieMode(hash.value))
            && (!cr.samlv2 ==> Parse(q.args).value.mode == PasswordMode(cr.username.value))
    ensures var q := C.LaunchRequest(c, token, hash, interp);
            var cr := c.credentials.value;
            var secret := if cr.samlv2 then token.value else cr.password.value;
            '\n' !in cr.sudoPassword.value && '\n' !in secret ==>
              Lines(q.input) == [cr.sudoPassword.value, secret]
  {
    var cr := c.credentials.value;
    var mode := if cr.samlv2 then CookieMode(hash.value) else PasswordMode(cr.username.value);
    ParseRender(Invocation(cr.binPath.value, interp.proto(c.proto), mode, interp.portal(cr.portal)));
    var secret := if cr.samlv2 then token.value else cr.password.value;
    if '\n' !in cr.sudoPassword.value && '\n' !in secret {
      PayloadLines(cr.sudoPassword.value, secret);
    }
  }

  /** Every launch a single event makes is well formed. */
  lemma ApplyLaunchesWellFormed(c: C.VPNController, e: Event, interp: Interpolation)
    requires Enabled(c, e)
    ensures forall q :: q in C.Launches(Apply(c, e, interp).effects) ==> WellFormedLaunch(q)
  {
    match e
    case StartCall(creds, save, storedSudo) =>
      if !creds.samlv2 {
        var c1 := c.(credentials := Some(C.WithStoredSudo(creds, storedSudo)));
        LaunchRequestDecodes(c1, Some(""), Some(""), interp);
        C.PasswordStartLaunch(c, creds, save, storedSudo, interp);
      }
    case StartVpnCall(token, hash) =>
      LaunchRequestDecodes(c, token, hash, interp);
    case RestartCall =>
      var c1 := C.Terminate(c, false).ctl;
      LaunchRequestDecodes(c1, c1.sessionToken, c1.serverCertHash, interp);
      C.RestartLaunch(c, interp);
    case PostAuthReply(resp) =>
      if C.TokenOf(resp).Some? {
        var c1 := C.StoreSession(c, resp.value);
        LaunchRequestDecodes(c1, c1.sessionToken, c1.serverCertHash, interp);
        C.PostAuthLaunch(c, resp, interp);
      }
    case _ =>
  }

  /** Every launch anywhere in a run is well formed. */
  lemma {:induction false} RunLaunchesWellFormed(c: C.VPNController, events: seq<Event>, interp: Interpolation)
    requires Run(c, events, interp).Some?
    ensures forall q :: q in C.Launches(Run(c, events, interp).value.effects) ==> WellFormedLaunch(q)
    decreases |events|
  {
    if events != [] {
      var s := Apply(c, events[0], interp);
      ApplyLaunchesWellFormed(c, events[0], interp);
      RunLaunchesWellFormed(s.ctl, events[1..], interp);
      var t := Run(s.ctl, events[1..], interp).value;
      C.LaunchesAppend(s.effects, t.effects);
    }
  }

  /** The SAML handshake as the window and the authentication manager drive
      it: start, a successful pre-authentication reply, the web login's
      cookie, and the post-authentication reply. */
  function Handshake(creds: Credentials, save: bool, storedSudo: Option<string>, pre: AuthRequestResp,
                     cookie: Cookie, done: AuthCompleteResp): seq<Event>
  {
    [StartCall(creds, save, storedSudo), PreAuthReply(Some(pre)), CookieReply(Some(cookie)), PostAuthReply(Some(done))]
  }

  /** A successful SAML handshake hands the pre-auth reply and the cookie to
      the authentication manager and ends in Processing with exactly one
      launch, which pins the server certificate and feeds sudo the superuser
      password and then the session token. */
  lemma SamlHandshake(c: C.VPNController, creds: Credentials, save: bool, storedSudo: Option<string>,
                      pre: AuthRequestResp, cookie: Cookie, done: AuthCompleteResp, interp: Interpolation)
    requires creds.samlv2 && creds.binPath.Some? && storedSudo.Some?
    requires pre.authError.None?
    requires done.sessionToken.Some? && done.serverCertHash.Some?
    ensures var es := Handshake(creds, save, storedSudo, pre, cookie, done);
            && Run(c, es, interp).Some?
            && var t := Run(c, es, interp).value;
            && t.ctl.state == Processing && !t.ctl.pinPopover
            && t.ctl.sessionToken == done.sessionToken && t.ctl.serverCertHash == done.serverCertHash
            && C.FinishAuth(Some(pre), cookie) in t.effects
            && C.Launches(t.effects)
               == [Request("/usr/bin/sudo",
                           ["-k", "-S", creds.binPath.value, "-b", "--protocol=" + interp.proto(c.proto),
                            "--pid-file=/var/run/openconnect.pid", "--cookie-on-stdin",
                            "--servercert=" + done.serverCertHash.value, interp.portal(creds.portal)],
                           storedSudo.value + "\n" + done.sessionToken.value + "\n")]
  {
    var es := Handshake(creds, save, storedSudo, pre, cookie, done);
    var s1, s2, s3, s4 := HandshakeSteps(c, creds, save, storedSudo, pre, cookie, done, interp);
    HandshakeRuns(c, es, s1, s2, s3, s4, interp);
    HandshakeEffects(s1.effects, s2.effects, s3.effects, s4.effects);
  }

  /** The requests of the four handshake steps, put together: the finish-auth
      request is among them and the only launch is the last step's. */
  lemma HandshakeEffects(e1: seq<C.Effect>, e2: seq<C.Effect>, e3: seq<C.Effect>, e4: seq<C.Effect>)
    requires C.Launches(e1) == [] && e2 == [] && |e3| == 2 && !e3[0].Launch? && !e3[1].Launch?
    ensures e3[1] in ((e1 + e2) + e3) + e4
    ensures C.Launches(((e1 + e2) + e3) + e4) == C.Launches(e4)
  {
    assert (((e1 + e2) + e3) + e4)[|e1| + |e2| + 1] == e3[1];
    C.LaunchesAppend(e1, e2);
    C.LaunchesAppend(e1 + e2, e3);
    C.LaunchesAppend((e1 + e2) + e3, e4);
    assert C.Launches(e3) == [] by {
      assert e3[1..][1..] == [];
    }
  }

  /** On the way, the handshake leaves the state alone at start, enters
      WebAuth with the popover pinned on the pre-authentication reply, and
      returns to Processing with the popover released on the cookie. */
  lemma HandshakeStates(c: C.VPNController, creds: Credentials, save: bool, storedSudo: Option<string>,
                        pre: AuthRequestResp, cookie: Cookie, done: AuthCompleteResp, interp: Interpolation)
    requires creds.samlv2 && creds.binPath.Some? && storedSudo.Some?
    requires pre.authError.None?
    requires done.sessionToken.Some? && done.serverCertHash.Some?
    ensures var es := Handshake(creds, save, storedSudo, pre, cookie, done);
            && Run(c, es[..1], interp).Some? && Run(c, es[..1], interp).value.ctl.state == c.state
            && Run(c, es[..2], interp).Some? && Run(c, es[..2], interp).value.ctl.state == WebAuth
            && Run(c, es[..2], interp).value.ctl.pinPopover
            && Run(c, es[..3], interp).Some? && Run(c, es[..3], interp).value.ctl.state == Processing
            && !Run(c, es[..3], interp).value.ctl.pinPopover
  {
    var es := Handshake(creds, save, storedSudo, pre, cookie, done);
    var s1, s2, s3, s4 := HandshakeSteps(c, creds, save, storedSudo, pre, cookie, done, interp);
    HandshakeRuns(c, es, s1, s2, s3, s4, interp);
  }

  /** Running four enabled events one after another accumulates their steps. */
  lemma HandshakeRuns(c: C.VPNController, es: seq<Event>, s1: C.Step, s2: C.Step, s3: C.Step, s4: C.Step,
                      interp: Interpolation)
    requires |es| == 4
    requires Enabled(c, es[0]) && s1 == Apply(c, es[0], interp)
    requires Enabled(s1.ctl, es[1]) && s2 == Apply(s1.ctl, es[1], interp)
    requires Enabled(s2.ctl, es[2]) && s3 == Apply(s2.ctl, es[2], interp)
    requires Enabled(s3.ctl, es[3]) && s4 == Apply(s3.ctl, es[3], interp)
    ensures Run(c, es[..1], interp) == Some(s1)
    ensures Run(c, es[..2], interp) == Some(C.Step(s2.ctl, s1.effects + s2.effects))
    ensures Run(c, es[..3], interp) == Some(C.Step(s3.ctl, (s1.effects + s2.effects) + s3.effects))
    ensures Run(c, es, interp) == Some(C.Step(s4.ctl, ((s1.effects + s2.effects) + s3.effects) + s4.effects))
  {
    assert es[..1] == [es[0]];
    RunSingle(c, es[0], interp);
    assert es[..2] == es[..1] + [es[1]];
    RunSnoc(c, es[..1], es[1], interp);
    assert es[..3] == es[..2] + [es[2]];
    RunSnoc(c, es[..2], es[2], interp);
    assert es == es[..3] + [es[3]];
    RunSnoc(c, es[..3], es[3], interp);
  }

  /** The four steps of the SAML handshake, one at a time. */
  lemma HandshakeSteps(c: C.VPNController, creds: Credentials, save: bool, storedSudo: Option<string>,
                       pre: AuthRequestResp, cookie: Cookie, done: AuthCompleteResp, interp: Interpolation)
    returns (s1: C.Step, s2: C.Step, s3: C.Step, s4: C.Step)
    requires creds.samlv2 && creds.binPath.Some? && storedSudo.Some?
    requires pre.authError.None?
    requires done.sessionToken.Some? && done.serverCertHash.Some?
    ensures Enabled(c, StartCall(creds, save, storedSudo)) && s1 == Apply(c, StartCall(creds, save, storedSudo), interp)
    ensures Enabled(s1.ctl, PreAuthReply(Some(pre))) && s2 == Apply(s1.ctl, PreAuthReply(Some(pre)), interp)
    ensures Enabled(s2.ctl, CookieReply(Some(cookie))) && s3 == Apply(s2.ctl, CookieReply(Some(cookie)), interp)
    ensures Enabled(s3.ctl, PostAuthReply(Some(done))) && s4 == Apply(s3.ctl, PostAuthReply(Some(done)), interp)
    ensures s1.ctl.state == c.state && C.Launches(s1.effects) == []
    ensures s2.ctl.state == WebAuth && s2.ctl.pinPopover && s2.effects == []
    ensures s3.ctl.state == Processing && !s3.ctl.pinPopover
    ensures s3.effects == [C.ClosePopoverScheduled, C.FinishAuth(Some(pre), cookie)]
    ensures s4.ctl.state == Processing && !s4.ctl.pinPopover
    ensures s4.ctl.sessionToken == done.sessionToken && s4.ctl.serverCertHash == done.serverCertHash
    ensures C.Launches(s4.effects)
            == [Request("/usr/bin/sudo",
                        ["-k", "-S", creds.binPath.value, "-b", "--protocol=" + interp.proto(c.proto),
                         "--pid-file=/var/run/openconnect.pid", "--cookie-on-stdin",
                         "--servercert=" + done.serverCertHash.value, interp.portal(creds.portal)],
                        storedSudo.value + "\n" + done.sessionToken.value + "\n")]
  {
    s1 := C.Start(c, creds, save, storedSudo, interp);
    s2 := C.PreAuthCallback(s1.ctl, Some(pre));
    s3 := C.AuthCookieCallback(s2.ctl, Some(cookie));
    s4 := C.PostAuthCallback(s3.ctl, Some(done), interp);
    assert C.Launches(s4.effects) == [s4.effects[0].request];
  }

  /** The password scenario: alice's credentials for an AnyConnect portal
      give one launch with `-u alice --passwd-on-stdin` and standard input
      "root1\npw1\n"; the protocol and portal arguments are whatever
      interpolation makes of AnyConnect and of the portal. */
  lemma PasswordScenario(c: C.VPNController, bin: string, save: bool, interp: Interpolation)
    requires c.proto == AnyConnect
    ensures var creds := Credentials(Some("vpn.example.com"), Some("alice"), Some("pw1"), None, Some(bin), false, None);
            && Run(c, [StartCall(creds, save, Some("root1"))], interp).Some?
            && var t := Run(c, [StartCall(creds, save, Some("root1"))], interp).value;
            && t.ctl.state == Processing
            && C.Launches(t.effects)
               == [Request("/usr/bin/sudo",
                           ["-k", "-S", bin, "-b", "--protocol=" + interp.proto(AnyConnect),
                            "--pid-file=/var/run/openconnect.pid", "-u", "alice", "--passwd-on-stdin",
                            interp.portal(Some("vpn.example.com"))],
                           "root1\npw1\n")]
  {
    var creds := Credentials(Some("vpn.example.com"), Some("alice"), Some("pw1"), None, Some(bin), false, None);
    var c1 := c.(credentials := Some(C.WithStoredSudo(creds, Some("root1"))));
    RunSingle(c, StartCall(creds, save, Some("root1")), interp);
    C.PasswordStartLaunch(c, creds, save, Some("root1"), interp);
    AliceRequest(c1, bin, interp);
  }

  lemma AliceRequest(c: C.VPNController, bin: string, interp: Interpolation)
    requires c.proto == AnyConnect
    requires c.credentials
             == Some(Credentials(Some("vpn.example.com"), Some("alice"), Some("pw1"), Some("root1"), Some(bin), false, None))
    ensures C.LaunchRequest(c, Some(""), Some(""), interp)
            == Request("/usr/bin/sudo",
                       ["-k", "-S", bin, "-b", "--protocol=" + interp.proto(AnyConnect),
                        "--pid-file=/var/run/openconnect.pid", "-u", "alice", "--passwd-on-stdin",
                        interp.portal(Some("vpn.example.com"))],
                       "root1\npw1\n")
  {
    var q := C.LaunchRequest(c, Some(""), Some(""), interp);
    assert q.input == "root1" + "\n" + "pw1" + "\n";
    assert "root1" + "\n" + "pw1" + "\n" == "root1\npw1\n";
  }

  /** After a full logout in SAML mode a restart stops the application:
      building the command line force-unwraps the forgotten server-certificate
      hash, before the forgotten session token is ever reached. */
  lemma ForgetThenRestartTraps(c: C.VPNController, interp: Interpolation)
    requires c.credentials.Some? && c.credentials.value.samlv2
    ensures Run(c, [TerminateCall(true), RestartCall], interp).None?
  {
    var s := Apply(c, TerminateCall(true), interp);
    assert !Enabled(s.ctl, RestartCall);
    assert [TerminateCall(true), RestartCall][1..] == [RestartCall];
  }

  /** The events that can neither launch without a stored session token nor
      store one. Excluded are: initializing, which may switch to credentials
      in password mode; a password-mode start, which launches with the
      password; an explicit `startvpn`, whose caller supplies the token; and a
      post-authentication reply, which stores a new token. */
  predicate KeepsSessionAbsent(e: Event)
  {
    match e
    case StartCall(creds, _, _) => creds.samlv2
    case PickProtocol(_) => true
    case RestartCall => true
    case PreAuthReply(_) => true
    case CookieReply(_) => true
    case TerminateCall(_) => true
    case _ => false
  }

  /** Without a session token in SAML mode nothing is launched until a
      post-authentication reply brings a new token: no cached token is ever
      reused. */
  lemma {:induction false} NoLaunchWithoutSession(c: C.VPNController, events: seq<Event>, interp: Interpolation)
    requires c.credentials.Some? && c.credentials.value.samlv2 && c.sessionToken.None?
    requires forall i :: 0 <= i < |events| ==> KeepsSessionAbsent(events[i])
    requires Run(c, events, interp).Some?
    ensures C.Launches(Run(c, events, interp).value.effects) == []
    ensures Run(c, events, interp).value.ctl.sessionToken.None?
    decreases |events|
  {
    if events != [] {
      assert KeepsSessionAbsent(events[0]);
      var s := Apply(c, events[0], interp);
      assert C.Launches(s.effects) == [];
      NoLaunchWithoutSession(s.ctl, events[1..], interp);
      var t := Run(s.ctl, events[1..], interp).value;
      C.LaunchesAppend(s.effects, t.effects);
    }
  }

  /** A full logout in SAML mode forces the whole handshake again: until a
      post-authentication reply arrives, nothing is launched. */
  lemma ForgetAuthForcesHandshake(c: C.VPNController, events: seq<Event>, interp: Interpolation)
    requires c.credentials.Some? && c.credentials.value.samlv2
    requires forall i :: 0 <= i < |events| ==> KeepsSessionAbsent(events[i])
    requires Run(c, [TerminateCall(true)] + events, interp).Some?
    ensures C.Launches(Run(c, [TerminateCall(true)] + events, interp).value.effects) == []
  {
    var s := Apply(c, TerminateCall(true), interp);
    RunAppend(c, [TerminateCall(true)], events, interp);
    NoLaunchWithoutSession(s.ctl, events, interp);
    var t := Run(s.ctl, events, interp).value;
    assert Run(c, [TerminateCall(true)], interp) == Some(C.Step(s.ctl, s.effects + []));
    C.LaunchesAppend(s.effects + [], t.effects);
  }
}

=== FILE: openconnect.dfy ===
/** The command line and the standard-input payload with which the controller
    starts openconnect through sudo, together with the readers that recover
    what a launch was asked to do from what it was given. */
module OpenConnect {
  import opened Optionals

  const SudoTool: string := "/usr/bin/sudo"
  const PidFileFlag: string := "--pid-file=/var/run/openconnect.pid"
  const CookieFlag: string := "--cookie-on-stdin"
  const PasswdFlag: string := "--passwd-on-stdin"
  const ProtocolPrefix: string := "--protocol="
  const ServerCertPrefix: string := "--servercert="

  /** One request to the process manager: the executable, its arguments and
      the bytes written to its standard input. */
  datatype Request = Request(tool: string, args: seq<string>, input: string)

  /** How openconnect authenticates: with a cookie read from standard input
      and a pinned server certificate, or as a user whose password is read
      from standard input. */
  datatype Mode = CookieMode(serverCertHash: string) | PasswordMode(username: string)

  /** Everything a launch's command line carries. */
  datatype Invocation = Invocation(binPath: string, protocol: string, mode: Mode, portal: string)

  /** The argument vector handed to sudo: `-k -S` make sudo forget cached
      credentials and read the password from standard input; `-b` puts
      openconnect in the background once connected. */
  function Render(v: Invocation): seq<string>
  {
    ["-k", "-S", v.binPath, "-b", ProtocolPrefix + v.protocol, PidFileFlag]
    + (match v.mode
       case CookieMode(hash) => [CookieFlag, ServerCertPrefix + hash]
       case PasswordMode(user) => ["-u", user, PasswdFlag])
    + [v.portal]
  }

  predicate HasPrefix(s: string, p: string)
  {
    |p| <= |s| && s[..|p|] == p
  }

  /** Reads an argument vector back into the invocation it describes, if it
      has the shape of one. */
  function Parse(args: seq<string>): Option<Invocation>
  {
    if |args| < 9 || args[0] != "-k" || args[1] != "-S" || args[3] != "-b"
       || !HasPrefix(args[4], ProtocolPrefix) || args[5] != PidFileFlag then None
    else if |args| == 9 && args[6] == CookieFlag && HasPrefix(args[7], ServerCertPrefix) then
      Some(Invocation(args[2], args[4][|ProtocolPrefix|..], CookieMode(args[7][|ServerCertPrefix|..]), args[8]))
    else if |args| == 10 && args[6] == "-u" && args[8] == PasswdFlag then
      Some(Invocation(args[2], args[4][|ProtocolPrefix|..], PasswordMode(args[7]), args[9]))
    else None
  }

  lemma StripPrefix(p: string, x: string)
    ensures HasPrefix(p + x, p) && (p + x)[|p|..] == x
  {
    assert (p + x)[..|p|] == p;
  }

  /** Every command line the controller builds reads back as what it was
      built from: binary, protocol, mode with its hash or user, and portal. */
  lemma ParseRender(v: Invocation)
    ensures Parse(Render(v)) == Some(v)
  {
    StripPrefix(ProtocolPrefix, v.protocol);
    match v.mode
    case CookieMode(hash) =>
      StripPrefix(ServerCertPrefix, hash);
    case PasswordMode(user) =>
  }

  /** Conversely, an argument vector that reads as an invocation is exactly
      the rendering of that invocation. */
  lemma RenderParse(args: seq<string>)
    requires Parse(args).Some?
    ensures Render(Parse(args).value) == args
  {
    var v := Parse(args).value;
    assert ProtocolPrefix + args[4][|ProtocolPrefix|..] == args[4] by {
      assert args[4] == args[4][..|ProtocolPrefix|] + args[4][|ProtocolPrefix|..];
    }
    if args[6] == CookieFlag {
      assert ServerCertPrefix + args[7][|ServerCertPrefix|..] == args[7] by {
        assert args[7] == args[7][..|ServerCertPrefix|] + args[7][|ServerCertPrefix|..];
      }
    }
  }

  /** The standard input of a launch: the superuser password for sudo, then
      the secret openconnect reads (session token or user password), each
      terminated by a newline. */
  function Payload(sudo: string, secret: string): string
  {
    sudo + "\n" + secret + "\n"
  }

  /** Splits `s` at its first newline into the text before it and the text
      after it; None when `s` holds no newline. */
  function SplitLine(s: string): (r: Option<(string, string)>)
    ensures r.None? <==> '\n' !in s
    ensures r.Some? ==> '\n' !in r.value.0 && s == r.value.0 + "\n" + r.value.1
  {
    if s == [] then None
    else if s[0] == '\n' then Some(([], s[1..]))
    else match SplitLine(s[1..])
      case None => None
      case Some((line, rest)) =>
        assert s == [s[0]] + s[1..];
        Some(([s[0]] + line, rest))
  }

  /** The lines a line-by-line reader of standard input sees, in order; a
      final unterminated fragment counts as a line. */
  function Lines(s: string): seq<string>
    decreases |s|
  {
    if s == [] then []
    else match SplitLine(s)
      case None => [s]
      case Some((line, rest)) => [line] + Lines(rest)
  }

  /** The first newline of `line + "\n" + rest` is the one after `line`. */
  lemma {:induction false} SplitAtFirstNewline(line: string, rest: string)
    requires '\n' !in line
    ensures SplitLine(line + "\n" + rest) == Some((line, rest))
    decreases |line|
  {
    var s := line + "\n" + rest;
    if line == [] {
      assert s == "\n" + rest;
      assert s[1..] == rest;
    } else {
      assert s[0] == line[0];
      assert s[1..] == line[1..] + "\n" + rest;
      SplitAtFirstNewline(line[1..], rest);
      assert [line[0]] + line[1..] == line;
    }
  }

  /** A reader of the payload sees exactly two lines: the superuser password,
      then the secret. */
  lemma PayloadLines(sudo: string, secret: string)
    requires '\n' !in sudo && '\n' !in secret
    ensures Lines(Payload(sudo, secret)) == [sudo, secret]
  {
    var s := Payload(sudo, secret);
    var tail := secret + "\n";
    assert s == sudo + "\n" + tail;
    SplitAtFirstNewline(sudo, tail);
    assert Lines(s) == [sudo] + Lines(tail);
    assert tail == secret + "\n" + "";
    SplitAtFirstNewline(secret, "");
    assert Lines(tail) == [secret] + Lines("");
  }

  lemma LinesOfSplit(s: string)
    requires SplitLine(s).Some?
    ensures Lines(s) == [SplitLine(s).value.0] + Lines(SplitLine(s).value.1)
  {
  }

  lemma ConsOfPair<T>(a: T, tail: seq<T>, x: T, y: T)
    requires [a] + tail == [x, y]
    ensures a == x && tail == [y]
  {
    assert ([a] + tail)[0] == a;
    assert tail == ([a] + tail)[1..];
  }

  lemma ConsOfSingle<T>(a: T, tail: seq<T>, x: T)
    requires [a] + tail == [x]
    ensures a == x && tail == []
  {
    assert ([a] + tail)[0] == a;
    assert tail == ([a] + tail)[1..];
  }

  lemma LinesEmpty(s: string)
    ensures Lines(s) == [] <==> s == []
  {
  }

  /** The last character of a concatenation comes from its non-empty tail. */
  lemma LastOfTail(head: string, tail: string)
    requires tail != []
    ensures (head + tail)[|head + tail| - 1] == tail[|tail| - 1]
  {
  }

  /** A newline-terminated input that reads as one line is that line and
      its newline. */
  lemma SingleLine(r: string, line: string)
    requires |r| > 0 && r[|r| - 1] == '\n'
    requires Lines(r) == [line]
    ensures r == line + "\n"
  {
    assert '\n' in r by { assert r[|r| - 1] == '\n'; }
    var sp := SplitLine(r).value;
    LinesOfSplit(r);
    ConsOfSingle(sp.0, Lines(sp.1), line);
    LinesEmpty(sp.1);
    assert r == line + "\n" + [];
  }

  /** Conversely, newline-terminated input that reads as two lines is the
      payload of those two lines. */
  lemma PayloadFromLines(s: string, sudo: string, secret: string)
    requires |s| > 0 && s[|s| - 1] == '\n'
    requires Lines(s) == [sudo, secret]
    ensures s == Payload(sudo, secret)
  {
    assert '\n' in s by { assert s[|s| - 1] == '\n'; }
    var sp := SplitLine(s).value;
    LinesOfSplit(s);
    ConsOfPair(sp.0, Lines(sp.1), sudo, secret);
    LinesEmpty(sp.1);
    LastOfTail(sp.0 + "\n", sp.1);
    SingleLine(sp.1, secret);
    assert s == sudo + "\n" + (secret + "\n");
  }
}

=== FILE: optionals.dfy ===
/** Swift optionals (`T?`), written out as a datatype. */
module Optionals {

  /** `None` plays the role of Swift's `nil`. */
  datatype Option<+T> = None | Some(value: T)
}

=== FILE: vpn_types.dfy ===
/** The value types the connection controller works on: its published state,
    the tunnel protocol, the credentials it is handed and the replies of the
    authentication manager. */
module VPNTypes {
  import opened Optionals

  /** The connection state the controller publishes to the window. */
  datatype VPNState = Stopped | WebAuth | Processing | Launched | ViewLogs

  /** The identifier of each case as Swift spells it. */
  function CaseName(s: VPNState): string
  {
    match s
    case Stopped => "stopped"
    case WebAuth => "webauth"
    case Processing => "processing"
    case Launched => "launched"
    case ViewLogs => "viewlogs"
  }

  /** The user-facing text of a state: the case's own name, except that a
      state in progress reads "launching". */
  function Description(s: VPNState): (d: string)
    ensures d == "launching" <==> s == Processing
    ensures s != Processing ==> d == CaseName(s)
  {
    match s
    case Stopped => "stopped"
    case WebAuth => "webauth"
    case Processing => "launching"
    case Launched => "launched"
    case ViewLogs => "viewlogs"
  }

  /** No two states share a description, so the text identifies the state. */
  lemma DescriptionInjective(s: VPNState, t: VPNState)
    requires Description(s) == Description(t)
    ensures s == t
  {
  }

  /** The tunnel protocols openconnect is asked to speak. */
  datatype VPNProtocol = GlobalProtect | AnyConnect

  /** The raw value of a protocol, which is also its `id`. */
  function Id(p: VPNProtocol): string
  {
    match p
    case GlobalProtect => "gp"
    case AnyConnect => "anyconnect"
  }

  /** Swift's `VPNProtocol(rawValue:)`: the protocol whose raw value is `s`. */
  function FromId(s: string): (r: Option<VPNProtocol>)
    ensures r.Some? ==> Id(r.value) == s
  {
    if s == "gp" then Some(GlobalProtect)
    else if s == "anyconnect" then Some(AnyConnect)
    else None
  }

  /** Reading back the raw value of a protocol gives that protocol. */
  lemma FromIdOfId(p: VPNProtocol)
    ensures FromId(Id(p)) == Some(p)
  {
  }

  /** The name the protocol picker shows. */
  function Name(p: VPNProtocol): (n: string)
    ensures n == "GlobalProtect" <==> p == GlobalProtect
    ensures n == "AnyConnect" <==> p == AnyConnect
  {
    match p
    case GlobalProtect => "GlobalProtect"
    case AnyConnect => "AnyConnect"
  }

  /** What the login form collects. `sudoPassword` is the superuser password
      handed to sudo; `binPath` is the openconnect executable; `preauth` is
      the pre-authentication reply the window reads its login URL from. */
  datatype Credentials = Credentials(
    portal: Option<string>,
    username: Option<string>,
    password: Option<string>,
    sudoPassword: Option<string>,
    binPath: Option<string>,
    samlv2: bool,
    preauth: Option<AuthRequestResp>)

  /** The portal's reply to the pre-authentication request: an error, or the
      URL of the interactive login page. */
  datatype AuthRequestResp = AuthRequestResp(authError: Option<string>, loginUrl: Option<string>)

  /** The portal's reply once the web login's cookie has been exchanged. */
  datatype AuthCompleteResp = AuthCompleteResp(sessionToken: Option<string>, serverCertHash: Option<string>)

  /** How string interpolation renders the protocol (`--protocol=\(proto)`)
      and the portal (`\(credentials!.portal)`) into the command line. Both
      are left as parameters: the protocol enum has no custom description,
      and the portal is an optional string. */
  datatype Interpolation = Interpolation(proto: VPNProtocol -> string, portal: Option<string> -> string)

  /** The cookie the web login hands back. */
  datatype Cookie = Cookie(name: string, value: string)
}
